=== FILE: README.md ===
# VoxBox chat relay — Dafny model

VoxBox is a small Flask application (`app_groq.py`) with two parts. The first is
a `/api/chat` endpoint. It takes the conversation the browser posts, puts a fixed
persona instruction in front of it, sends it to a chat-completion service, masks
the vendor and model names in the answer with five literal replacements, and
returns JSON. The second is a chat page whose script keeps the conversation in
memory, posts all of it on every send, and appends the answer or a fixed
fallback.

This project models both parts as pure functions and proves what they promise.

- `options.dfy` — `Option`, for JSON keys that may be absent.
- `substrings.dfy` — the Python string operations the filter uses. `ReplaceAll`
  is `str.replace` and `MatchCount` is `str.count`. `Occurs` is `in`, and
  `Split`/`Join` are `str.split`/`str.join`. All of them scan left to right and
  take matches that do not overlap. `Split`/`Join` are the reference definition
  for `ReplaceAll`.
- `identity_filter.dfy` — the filter as a list of replacement rules applied in
  order, with lemmas about which names can survive it.
- `relay.dfy` — the handler. The completion service is a function parameter
  (`upstream`), and the result records the one request sent to it, if any.
  This makes "not consulted" and "exactly one call" statable.
- `chat_page.dfy` — the page's `messages` history, one send (`Send`), the wire
  encoding, JavaScript `trim`, and lemmas that connect the page to the handler.

## Model

| member | source | states |
|---|---|---|
| Substrings.ReplaceAllIsSplitJoin | app_groq.py:70-74 | every `replace` call equals splitting on the target and joining the pieces with the replacement, so all non-overlapping occurrences are replaced, left to right; with `SplitCount`, `SplitPiecesClean` and `SplitJoinRoundTrip` this says that every occurrence is replaced, which for the five targets means every occurrence at all, since none of them can overlap itself |
| Substrings.ReplaceAll | app_groq.py:70-74 | Python `str.replace` on text, scanning left to right and replacing non-overlapping occurrences; its behaviour is stated by the `ReplaceAllIsSplitJoin`, `ReplaceAllLength`, `ReplaceAllClean` and `ReplaceAllRemoves` rows |
| Substrings.SplitCount | app_groq.py:70-74 | the text splits into one more piece than it has non-overlapping occurrences of the target |
| Substrings.SplitPiecesClean | app_groq.py:70-74 | no piece between two matches contains the target, so the split leaves no occurrence unreplaced |
| Substrings.SplitJoinRoundTrip | app_groq.py:70-74 | joining the pieces with the target itself gives back the text, so the pieces and the matches cover it exactly |
| Substrings.ReplaceAllClean | app_groq.py:70-74 | text that does not contain the target is returned unchanged |
| Substrings.ReplaceAllFixedIff | app_groq.py:70-74 | when the replacement's length differs from the target's, as in all five calls, the text is unchanged exactly when the target does not occur |
| Substrings.ReplaceAllAfterBarrier | app_groq.py:70-74 | text in which no occurrence of the target can start is copied unchanged, and replacement continues on the rest |
| Substrings.ReplaceAllLength | app_groq.py:70-74 | the output length is the input length plus `count` times the length difference |
| Substrings.ReplaceAllRemoves | app_groq.py:70-74 | no occurrence of the target is left, if the replacement can neither contain the target's start nor complete a partial target before it |
| Substrings.ReplaceAllKeepsAbsent | app_groq.py:70-74 | a replacement under the same conditions cannot create an occurrence of some other string that the input lacked |
| IdentityFilter.FilterSteps | app_groq.py:70-74 | the filter is exactly the five whole-text replacements Groq, Llama, LLM, Language Model, as an AI, in that order |
| IdentityFilter.Filter | app_groq.py:70-74 | the post-processing of the completion text; its behaviour is stated by the `FilterSteps`, `FilterIdentityOnClean`, `FilterHidesVendor` and `FilterLeaksLlama` rows |
| IdentityFilter.FilterIdentityOnClean | app_groq.py:70-74 | text that contains none of the five targets passes through unchanged |
| IdentityFilter.FilterHidesVendor | app_groq.py:70-74 | no output of the filter contains "Groq" |
| IdentityFilter.FilterChangesVendorText | app_groq.py:70 | text that contains "Groq" is always changed by the filter |
| IdentityFilter.FilterLeaksLlama | app_groq.py:71-72 | "LlamLLM" has no "Llama", but the filter turns it into "Llamassistant", which does |
| IdentityFilter.FilterReorderedHidesNames | app_groq.py:70-74 | with "Llama" replaced after the two "assistant" rules, no output contains "Groq" or "Llama" |
| IdentityFilter.FilterOrdersAgree | app_groq.py:70-74 | on text without "LLM" and "Language Model", the corrected order gives the same result as the code's order |
| Relay.MapRole | app_groq.py:55 | role "model" becomes the assistant and every other value becomes the user; no client role becomes the system role |
| Relay.SystemPrompt | app_groq.py:26-35 | the system instruction, with the text of the source verbatim; `Translate` puts it first and nowhere else |
| Relay.Ready | app_groq.py:41-42 | the handler is ready when the client exists and the key is not the placeholder `YOUR_GROQ_API_KEY`; the `Chat` row states what happens otherwise |
| Relay.TranslateTurn | app_groq.py:55-56 | a turn translates exactly when it has a role and a first part with text; the content is that text and the role is never the system role |
| Relay.TranslateTurns | app_groq.py:54-57 | translation succeeds exactly when every turn translates; it keeps the length and puts turn i at position i |
| Relay.Translate | app_groq.py:51-57 | the message list has n+1 entries for n turns; the fixed system instruction comes first and is the only system message; turn i is at position i+1 |
| Relay.Chat | app_groq.py:39-81 | not ready gives 500 with the fixed text and no call; a body that is not an object, or a turn that does not translate, gives 500 with the generic text and no call; missing or empty contents give 400 and no call; otherwise exactly one call with the translated history and fixed parameters, then 200 with the filtered content or 500 with the generic text; the status is always 200, 400 or 500 |
| Relay.Handle | app_groq.py:39-81 | the handler with the filter as a parameter; `Chat` is `Handle` with the code's filter, and its row states every branch |
| Relay.Completion | app_groq.py:60-65 | the one call's fixed arguments: the model name, the message list, temperature 0.7 and at most 250 tokens; the `Chat` row states when it is made |
| Relay.ChatHidesVendor | app_groq.py:67-76 | a 200 answer never contains "Groq" |
| Relay.ChatHidesUpstreamErrors | app_groq.py:78-81 | the response does not depend on the text of an upstream exception |
| Relay.ChatReordered | app_groq.py:39-81 | the handler with the corrected filter: the same call and status as `Chat`, the same response whenever it is not 200, and a 200 answer that is the completion under the corrected filter, so it names neither "Groq" nor "Llama" |
| Relay.ChatReorderedAgrees | app_groq.py:70-74 | the corrected handler gives exactly the response of the handler as written unless the completion mentions "LLM" or "Language Model" |
| ChatPage.Trim | app_groq.py:259 | `trim()` returns the slice of the input between its leading and trailing whitespace; both removed parts are whitespace and the result has none at either end |
| ChatPage.BlankIffAllWhitespace | app_groq.py:259-260 | an input is ignored exactly when every character is whitespace |
| ChatPage.TrimIdempotent | app_groq.py:259 | trimming an already trimmed text changes nothing |
| ChatPage.EncodeInjective | app_groq.py:277-280 | different histories are posted as different wire contents |
| ChatPage.ToWire | app_groq.py:277-280 | one turn in wire form; stated by the `EncodeThenTranslate` row |
| ChatPage.Encode | app_groq.py:277-280 | the history in wire form, in order; stated by the `EncodeInjective`, `EncodeThenTranslate` and `HistoryRecoverable` rows |
| ChatPage.EncodeThenTranslate | app_groq.py:277-280 | the server turns an encoded history into the system instruction followed by every turn in order, with its content unchanged and model turns as assistant messages |
| ChatPage.HistoryRecoverable | app_groq.py:277-280 | the history can be recovered from the server's message list, so encoding followed by translation loses nothing |
| ChatPage.Send | app_groq.py:258-316 | a blank input leaves the history unchanged; any other input keeps the earlier turns, then appends a user turn with the trimmed text and one model turn; the model turn is the trimmed answer to the whole new history, or the fallback when no answer came |
| ChatPage.ReplyTurn | app_groq.py:289-309 | the model turn appended after a reply: the trimmed text of an ok answer, the fallback otherwise; stated by the `Send` and `SendRoundTrip` rows |
| ChatPage.Answered | app_groq.py:289-296 | a reply counts as an answer when the request succeeded with an ok status and a body carrying `text`; anything else ends in the fallback; stated by the `Send` and `ReplyTurn` rows |
| ChatPage.Session | app_groq.py:168-170 | the history after page load and a sequence of sends; stated by the `SessionAlternates` row |
| ChatPage.AlternatingShape | app_groq.py:168-170 | a history made of the greeting and user/model pairs starts with the greeting, ends with a model turn and has odd length |
| ChatPage.SendPreservesAlternating | app_groq.py:266-309 | a send keeps the history in the form: the greeting, then pairs of a user turn and a model turn |
| ChatPage.SessionAlternates | app_groq.py:168-170 | every history built from page load by sends that each finish before the next starts, whatever was typed and answered, has that form |
| ChatPage.SendReachesUpstream | app_groq.py:277-287 | against the real handler, a send that is not blank is never answered 400; when the server is ready, the completion service receives the system instruction and then the whole conversation, greeting included |
| ChatPage.SendRoundTrip | app_groq.py:289-309 | against the real handler, the appended model turn is the trimmed, filtered completion when the service returned content, and the fallback otherwise |
| ChatPage.FallbackIsPostedBack | app_groq.py:303-309 | after a failed send, the fallback turn is posted back to the server as a model turn on the next send |

## Left out

- Flask routing, `jsonify` and the `GET /` page's HTML and CSS are framework and presentation code.
- `request.json` is reduced to two cases: not an object (`Malformed`), or an object whose `contents` is absent or a list of turns. Flask's own errors for a body that is not JSON are raised inside the `try` block, so they end in the generic 500 like `Malformed`.
- A `contents` value that is neither a list nor absent is not modelled. A falsy one (`""`, `0`, `{}`) would give 400, and any other would raise and give 500.
- A `role` or `text` that is not a string is not modelled, and neither is a `parts` that is not a list.
- A turn or a part that is not a JSON object (for example `{"contents": ["hi"]}`) is not representable by `WireTurn` and `Part`. In the code it raises at line 55 and ends in the generic 500.
- The construction of the completion client and the network call are not modelled. Readiness is the parameter `clientInitialized` together with the key check. The call is the `upstream` function, and its `Raised` case covers every exception from the call and from reading `choices[0].message.content`.
- The model name, `temperature=0.7` and `max_tokens=250` are constants. They are recorded in the request only and have no meaning here.
- The `print` logging on both error paths is left out.
- In the page script, the DOM rendering, the thinking indicator, scrolling, icons and speech synthesis are not modelled. The greeting spoken at load is left out too.
- `fetch`, `async`/`await` and JSON parsing of the response are reduced to the `server` parameter. It returns the handler's response, or `None` when the request fails.
- The send button is disabled during a request, but this is not enforced. Sends are modelled one after another, and two sends in flight at once are not modelled.
- ChatPage.SessionAlternates: covers only sends that finish before the next starts. The Enter handler (lines 321-325) calls `handleSendMessage()` without checking whether the send button is disabled, and the input box stays enabled. So a second message sent during a pending request can give `[greeting, user1, user2, model, model]`, which is not alternating.
- `Substrings.ReplaceAll` requires a non-empty target. Python's behaviour for an empty target (inserting the replacement between characters) is not modelled, because all five targets are non-empty literals.
- `ChatPage.IsWhitespace` lists the ECMAScript WhiteSpace and LineTerminator code points under the current Unicode space-separator category. Older engines may differ.

Behaviour of the code that is easy to miss, modelled as written:

- The greeting turn is part of `messages`, so it is posted to the server on every send (`ChatPage.SendReachesUpstream`).
- The fallback turn is also stored in `messages`, so it is posted back on the next send (`ChatPage.FallbackIsPostedBack`).
- The readiness check also refuses the placeholder key `YOUR_GROQ_API_KEY` (`Relay.Ready`).
- A 200 answer can be empty: the filter of an empty completion is empty.
- Only 200 texts are filtered. The generic 500 sentence itself contains "Groq".

## Findings

| source | as written | input that shows it | evidently intended | confidence | as-written member | corrected member |
|---|---|---|---|---|---|---|
| app_groq.py:70-74 | "Llama" is replaced second, before the "LLM" and "Language Model" rules, whose replacement "assistant" begins with the letter that ends "Llama" | completion text `LlamLLM` contains no "Llama" but comes back as `Llamassistant` (the same happens with `Llam` followed by `Language Model`) | the filter and the system instruction (line 31) mean the answer never names "Llama"; replacing "Llama" after the two "assistant" rules guarantees it | medium, not executed | IdentityFilter.FilterLeaksLlama | IdentityFilter.FilterReorderedHidesNames |

`Relay.Chat` keeps the code's order, because it models the handler as written.
`Relay.ChatReordered` is the same handler with the corrected order
(`IdentityFilter.FilterReordered`). `IdentityFilter.FilterOrdersAgree` shows
that the two orders differ only on text that contains "LLM" or
"Language Model".

=== FILE: chat_page.dfy ===
/**
 * The browser side of the chat page: the in-memory conversation, what one
 * send does to it, and the wire encoding posted to `/api/chat`.
 *
 * The round trip to the server is a parameter (`server`): it maps the posted
 * wire turns to the server's response, or to `None` when the request itself
 * fails.
 */
module ChatPage {
  import opened Options
  import Relay
  import IdentityFilter

  datatype Author = User | Model

  /** One entry of the page's `messages` array. */
  datatype Turn = Turn(author: Author, content: string)

  const Greeting: string := "Hi! I'm VoxBox, your intelligent assistant. How can I help you today?"
  const FallbackText: string :=
    "Sorry, I ran into an issue. Please check the server, your Groq API key, and try again."

  /** The conversation when the page loads: the greeting alone. */
  const InitialHistory: seq<Turn> := [Turn(Model, Greeting)]

  /**
   * The ECMAScript WhiteSpace and LineTerminator code points, which
   * `String.prototype.trim` strips: tab, line feed, vertical tab, form feed,
   * carriage return, the Unicode space separators, the line and paragraph
   * separators and the byte order mark.
   */
  const Whitespace: set<char> := {
    '\t', '\n', '\U{000B}', '\U{000C}', '\r', ' ', '\U{00A0}', '\U{1680}',
    '\U{2000}', '\U{2001}', '\U{2002}', '\U{2003}', '\U{2004}', '\U{2005}',
    '\U{2006}', '\U{2007}', '\U{2008}', '\U{2009}', '\U{200A}',
    '\U{2028}', '\U{2029}', '\U{202F}', '\U{205F}', '\U{3000}', '\U{FEFF}'
  }

  predicate IsWhitespace(c: char) {
    c in Whitespace
  }

  /** The first index at or after `i` that does not hold a character from `ws`, or `|s|`. */
  function SkipForward(s: string, ws: set<char>, i: nat): (j: nat)
    requires i <= |s|
    ensures i <= j <= |s|
    ensures forall k :: i <= k < j ==> s[k] in ws
    ensures j == |s| || s[j] !in ws
    decreases |s| - i
  {
    if i < |s| && s[i] in ws then SkipForward(s, ws, i + 1) else i
  }

  /** The least `j` with `lo <= j <= hi` such that `s[j..hi]` holds only characters from `ws`. */
  function SkipBackward(s: string, ws: set<char>, lo: nat, hi: nat): (j: nat)
    requires lo <= hi <= |s|
    ensures lo <= j <= hi
    ensures forall k :: j <= k < hi ==> s[k] in ws
    ensures j == lo || s[j - 1] !in ws
    decreases hi
  {
    if lo < hi && s[hi - 1] in ws then SkipBackward(s, ws, lo, hi - 1) else hi
  }

  /** The number of leading whitespace characters of `s`. */
  function LeadingWhitespace(s: string): (n: nat)
    ensures n <= |s|
  {
    SkipForward(s, Whitespace, 0)
  }

  /**
   * JavaScript's `s.trim()`: the slice of `s` between its leading and its
   * trailing whitespace.
   */
  function Trim(s: string): (r: string)
    ensures LeadingWhitespace(s) + |r| <= |s|
    ensures r == s[LeadingWhitespace(s)..LeadingWhitespace(s) + |r|]
    ensures forall k :: 0 <= k < LeadingWhitespace(s) ==> IsWhitespace(s[k])
    ensures forall k :: LeadingWhitespace(s) + |r| <= k < |s| ==> IsWhitespace(s[k])
    ensures r == [] || (!IsWhitespace(r[0]) && !IsWhitespace(r[|r| - 1]))
  {
    var lo := LeadingWhitespace(s);
    s[lo..SkipBackward(s, Whitespace, lo, |s|)]
  }

  /** An input is blank exactly when it consists of whitespace only. */
  lemma BlankIffAllWhitespace(s: string)
    ensures Trim(s) == [] <==> forall k :: 0 <= k < |s| ==> IsWhitespace(s[k])
  {
  }

  /** Trimming twice is trimming once. */
  lemma TrimIdempotent(s: string)
    ensures Trim(Trim(s)) == Trim(s)
  {
  }

  function RoleName(a: Author): string {
    match a
    case User => "user"
    case Model => "model"
  }

  /** `{role: msg.role, parts: [{text: msg.content}]}`. */
  function ToWire(t: Turn): Relay.WireTurn {
    Relay.WireTurn(Some(RoleName(t.author)), Some([Relay.Part(Some(t.content))]))
  }

  /** The whole history in wire form, in order: `messages.map(...)`. */
  function Encode(history: seq<Turn>): seq<Relay.WireTurn> {
    seq(|history|, i requires 0 <= i < |history| => ToWire(history[i]))
  }

  /** The message the server should make of a turn: the model speaks as the assistant. */
  function ExpectedMessage(t: Turn): Relay.Message {
    Relay.Message(if t.author == Model then Relay.Assistant else Relay.User, t.content)
  }

  function ExpectedMessages(history: seq<Turn>): seq<Relay.Message> {
    seq(|history|, i requires 0 <= i < |history| => ExpectedMessage(history[i]))
  }

  /** Distinct histories are posted as distinct wire contents. */
  lemma EncodeInjective(h1: seq<Turn>, h2: seq<Turn>)
    requires Encode(h1) == Encode(h2)
    ensures h1 == h2
  {
    assert |h1| == |Encode(h1)| == |Encode(h2)| == |h2|;
    forall i | 0 <= i < |h1|
      ensures h1[i] == h2[i]
    {
      assert ToWire(h1[i]) == Encode(h1)[i] == Encode(h2)[i] == ToWire(h2[i]);
    }
  }

  /**
   * What the server makes of an encoded history: the system instruction, then
   * every turn with its content unchanged and its author as the matching role.
   */
  lemma EncodeThenTranslate(history: seq<Turn>)
    ensures Relay.Translate(Encode(history)) == Some([Relay.SystemPrompt] + ExpectedMessages(history))
  {
    var w := Encode(history);
    forall i | 0 <= i < |w|
      ensures Relay.TranslateTurn(w[i]) == Some(ExpectedMessage(history[i]))
    {
      assert w[i] == ToWire(history[i]);
    }
    var ms := Relay.Translate(w).value;
    assert ms == [Relay.SystemPrompt] + ExpectedMessages(history);
  }

  /** Different histories expect different message lists. */
  lemma ExpectedMessagesInjective(h1: seq<Turn>, h2: seq<Turn>)
    requires ExpectedMessages(h1) == ExpectedMessages(h2)
    ensures h1 == h2
  {
    assert |h1| == |ExpectedMessages(h1)| == |ExpectedMessages(h2)| == |h2|;
    forall i | 0 <= i < |h1|
      ensures h1[i] == h2[i]
    {
      assert ExpectedMessages(h1)[i] == ExpectedMessage(h1[i]);
      assert ExpectedMessages(h2)[i] == ExpectedMessage(h2[i]);
    }
  }

  /** The server's translation loses nothing: the history is determined by what it receives. */
  lemma HistoryRecoverable(h1: seq<Turn>, h2: seq<Turn>)
    requires Relay.Translate(Encode(h1)) == Relay.Translate(Encode(h2))
    ensures h1 == h2
  {
    EncodeThenTranslate(h1);
    EncodeThenTranslate(h2);
    var e1, e2 := ExpectedMessages(h1), ExpectedMessages(h2);
    assert ([Relay.SystemPrompt] + e1)[1..] == e1;
    assert ([Relay.SystemPrompt] + e2)[1..] == e2;
    ExpectedMessagesInjective(h1, h2);
  }

  /** The server answered with an `ok` status and a `text` field. */
  predicate Answered(delivery: Option<Relay.Response>) {
    && delivery.Some?
    && 200 <= delivery.value.status <= 299
    && delivery.value.body.TextBody?
  }

  /** The turn appended after a request: the trimmed answer, or the fixed fallback. */
  function ReplyTurn(delivery: Option<Relay.Response>): Turn {
    if Answered(delivery) then Turn(Model, Trim(delivery.value.body.text)) else Turn(Model, FallbackText)
  }

  /** One press of send (or Enter) with `input` in the text box. */
  function Send(history: seq<Turn>, input: string,
                server: seq<Relay.WireTurn> -> Option<Relay.Response>): (h: seq<Turn>)
    ensures Trim(input) == [] ==> h == history
    ensures Trim(input) != [] ==>
      && |h| == |history| + 2
      && h[..|history|] == history
      && h[|history|] == Turn(User, Trim(input))
      && h[|history| + 1].author == Model
      && (Answered(server(Encode(h[..|history| + 1])))
          ==> h[|history| + 1].content == Trim(server(Encode(h[..|history| + 1])).value.body.text))
      && (!Answered(server(Encode(h[..|history| + 1])))
          ==> h[|history| + 1].content == FallbackText)
  {
    var text := Trim(input);
    if text == [] then history
    else
      var sent := history + [Turn(User, text)];
      assert (sent + [ReplyTurn(server(Encode(sent)))])[..|history| + 1] == sent;
      sent + [ReplyTurn(server(Encode(sent)))]
  }

  /** The conversation after the page has processed `inputs` in order. */
  function Session(inputs: seq<string>, server: seq<Relay.WireTurn> -> Option<Relay.Response>): seq<Turn>
    decreases |inputs|
  {
    if |inputs| == 0 then InitialHistory
    else Send(Session(inputs[..|inputs| - 1], server), inputs[|inputs| - 1], server)
  }

  /** The greeting, followed by pairs of a user turn and a model turn. */
  predicate Alternating(h: seq<Turn>)
    decreases |h|
  {
    if |h| <= 1 then h == InitialHistory
    else
      && |h| >= 3
      && h[|h| - 2].author == User
      && h[|h| - 1].author == Model
      && Alternating(h[..|h| - 2])
  }

  /** An alternating history starts with the greeting, ends with a model turn and has odd length. */
  lemma {:induction false} AlternatingShape(h: seq<Turn>)
    requires Alternating(h)
    ensures |h| % 2 == 1
    ensures h[0] == Turn(Model, Greeting)
    ensures h[|h| - 1].author == Model
    decreases |h|
  {
    if |h| > 1 {
      AlternatingShape(h[..|h| - 2]);
      assert h[..|h| - 2][0] == h[0];
    }
  }

  /** A send keeps the conversation alternating. */
  lemma {:induction false} SendPreservesAlternating(history: seq<Turn>, input: string,
                                                    server: seq<Relay.WireTurn> -> Option<Relay.Response>)
    requires Alternating(history)
    ensures Alternating(Send(history, input, server))
  {
    var h := Send(history, input, server);
    if Trim(input) != [] {
      assert h[..|h| - 2] == h[..|history|] == history;
    }
  }

  /**
   * Every history built from page load by sends that each finish before the
   * next starts is the greeting followed by user/model pairs.
   */
  lemma {:induction false} SessionAlternates(inputs: seq<string>,
                                             server: seq<Relay.WireTurn> -> Option<Relay.Response>)
    ensures Alternating(Session(inputs, server))
    decreases |inputs|
  {
    if |inputs| > 0 {
      SessionAlternates(inputs[..|inputs| - 1], server);
      SendPreservesAlternating(Session(inputs[..|inputs| - 1], server), inputs[|inputs| - 1], server);
    }
  }

  /** The server side of the page: the handler, answering whatever is posted. */
  function Server(clientInitialized: bool, apiKey: string, upstream: Relay.CompletionRequest -> Relay.Reply)
    : seq<Relay.WireTurn> -> Option<Relay.Response>
  {
    contents => Some(Relay.Chat(clientInitialized, apiKey, Relay.Payload(Some(contents)), upstream).response)
  }

  /**
   * Against the real handler, a send that is not blank never gets the
   * "No content provided." answer, and the completion service sees the
   * system instruction followed by the whole conversation, greeting included.
   */
  lemma SendReachesUpstream(history: seq<Turn>, input: string, clientInitialized: bool, apiKey: string,
                            upstream: Relay.CompletionRequest -> Relay.Reply)
    requires Trim(input) != []
    ensures var posted := Encode(history + [Turn(User, Trim(input))]);
      var x := Relay.Chat(clientInitialized, apiKey, Relay.Payload(Some(posted)), upstream);
      && x.response.status != 400
      && (Relay.Ready(clientInitialized, apiKey) ==>
            x.sent == Some(Relay.Completion([Relay.SystemPrompt]
                                            + ExpectedMessages(history + [Turn(User, Trim(input))]))))
  {
    var sent := history + [Turn(User, Trim(input))];
    EncodeThenTranslate(sent);
    assert Encode(sent) != [] by { assert |Encode(sent)| == |sent| > 0; }
  }

  /**
   * A full round trip against the real handler: the appended model turn is
   * the trimmed, filtered completion when the service produced content, and
   * the fallback text otherwise.
   */
  lemma SendRoundTrip(history: seq<Turn>, input: string, clientInitialized: bool, apiKey: string,
                      upstream: Relay.CompletionRequest -> Relay.Reply)
    requires Trim(input) != []
    ensures var h := Send(history, input, Server(clientInitialized, apiKey, upstream));
      var call := Relay.Completion([Relay.SystemPrompt]
                                   + ExpectedMessages(history + [Turn(User, Trim(input))]));
      h[|history| + 1] ==
        if Relay.Ready(clientInitialized, apiKey) && upstream(call).Completed? && upstream(call).content.Some?
        then Turn(Model, Trim(IdentityFilter.Filter(upstream(call).content.value)))
        else Turn(Model, FallbackText)
  {
    var sent := history + [Turn(User, Trim(input))];
    SendReachesUpstream(history, input, clientInitialized, apiKey, upstream);
    var h := Send(history, input, Server(clientInitialized, apiKey, upstream));
    assert h[..|history| + 1] == sent;
  }

  /**
   * The fallback turn is part of the history from then on, so the next send
   * posts it back to the server as a model turn.
   */
  lemma FallbackIsPostedBack(history: seq<Turn>, input: string, next: string,
                             server: seq<Relay.WireTurn> -> Option<Relay.Response>)
    requires Trim(input) != [] && Trim(next) != []
    requires !Answered(server(Encode(history + [Turn(User, Trim(input))])))
    ensures var h := Send(history, input, server);
      Encode(h + [Turn(User, Trim(next))])[|history| + 1]
        == Relay.WireTurn(Some("model"), Some([Relay.Part(Some(FallbackText))]))
  {
    var h := Send(history, input, server);
    assert h[..|history| + 1] == history + [Turn(User, Trim(input))];
  }
}

=== FILE: identity_filter.dfy ===
/**
 * The post-processing filter that masks the vendor and model identity in a
 * completion: a fixed list of literal, case-sensitive replacements, each one
 * applied to the whole text (every non-overlapping occurrence) before the next.
 */
module IdentityFilter {
  import opened Substrings

  /** Replace every occurrence of `target` by `replacement`. */
  datatype Rule = Rule(target: string, replacement: string)

  /** The name the assistant presents itself under. */
  const PublicName: string := "VoxBox"

  /** The replacements in the order the handler applies them. */
  const Rules: seq<Rule> := [
    Rule("Groq", PublicName),
    Rule("Llama", PublicName),
    Rule("LLM", "assistant"),
    Rule("Language Model", "assistant"),
    Rule("as an AI", "I'm VoxBox")
  ]

  predicate ValidRules(rules: seq<Rule>) {
    forall i :: 0 <= i < |rules| ==> |rules[i].target| > 0
  }

  /** Apply the rules one after another, each to the output of the previous one. */
  function ApplyRules(s: string, rules: seq<Rule>): string
    requires ValidRules(rules)
    decreases |rules|
  {
    if |rules| == 0 then s
    else ApplyRules(ReplaceAll(s, rules[0].target, rules[0].replacement), rules[1..])
  }

  /** The filter exactly as the handler applies it. */
  function Filter(s: string): string {
    ApplyRules(s, Rules)
  }

  /** None of the rules' targets occurs in `s`. */
  predicate Clean(s: string, rules: seq<Rule>) {
    forall i :: 0 <= i < |rules| ==> !Occurs(s, rules[i].target)
  }

  /**
   * Applying `rule` can never create an occurrence of `q`: `q` cannot start
   * inside the replacement, and the replacement cannot continue a partial `q`.
   */
  predicate CannotRecreate(rule: Rule, q: string) {
    && |q| > 0
    && |rule.replacement| > 0
    && q[0] !in rule.replacement
    && rule.replacement[0] !in q
  }

  /** A string lacking some character of `q` does not contain `q`. */
  lemma AbsentWithoutChar(s: string, q: string, j: nat)
    requires j < |q|
    requires q[j] !in s
    ensures !Occurs(s, q)
  {
    OccursIffSomeIndex(s, q);
  }

  /** The filter is five successive whole-text replacements, in this order. */
  lemma FilterSteps(s: string)
    ensures Filter(s) ==
      ReplaceAll(ReplaceAll(ReplaceAll(ReplaceAll(ReplaceAll(s,
        "Groq", "VoxBox"), "Llama", "VoxBox"), "LLM", "assistant"),
        "Language Model", "assistant"), "as an AI", "I'm VoxBox")
  {
    var rs := Rules;
    var s1 := ReplaceAll(s, "Groq", "VoxBox");
    var s2 := ReplaceAll(s1, "Llama", "VoxBox");
    var s3 := ReplaceAll(s2, "LLM", "assistant");
    var s4 := ReplaceAll(s3, "Language Model", "assistant");
    var s5 := ReplaceAll(s4, "as an AI", "I'm VoxBox");
    assert ApplyRules(s4, rs[4..]) == s5 by { assert rs[4..][1..] == []; }
    assert ApplyRules(s3, rs[3..]) == ApplyRules(s4, rs[4..]) by { assert rs[3..][1..] == rs[4..]; }
    assert ApplyRules(s2, rs[2..]) == ApplyRules(s3, rs[3..]) by { assert rs[2..][1..] == rs[3..]; }
    assert ApplyRules(s1, rs[1..]) == ApplyRules(s2, rs[2..]) by { assert rs[1..][1..] == rs[2..]; }
  }

  /** Text containing none of the targets passes through unchanged. */
  lemma {:induction false} ApplyRulesClean(s: string, rules: seq<Rule>)
    requires ValidRules(rules)
    requires Clean(s, rules)
    ensures ApplyRules(s, rules) == s
    decreases |rules|
  {
    if |rules| > 0 {
      ReplaceAllClean(s, rules[0].target, rules[0].replacement);
      ApplyRulesClean(s, rules[1..]);
    }
  }

  /** Rules that cannot recreate `q` keep it absent. */
  lemma {:induction false} ApplyRulesKeepsAbsent(s: string, rules: seq<Rule>, q: string)
    requires ValidRules(rules)
    requires forall i :: 0 <= i < |rules| ==> CannotRecreate(rules[i], q)
    requires !Occurs(s, q)
    ensures !Occurs(ApplyRules(s, rules), q)
    decreases |rules|
  {
    if |rules| > 0 {
      assert CannotRecreate(rules[0], q);
      ReplaceAllKeepsAbsent(s, rules[0].target, rules[0].replacement, q);
      ApplyRulesKeepsAbsent(ReplaceAll(s, rules[0].target, rules[0].replacement), rules[1..], q);
    }
  }

  /**
   * A target is gone from the final text when its own rule cannot recreate it
   * and no later rule can either.
   */
  lemma {:induction false} ApplyRulesRemoves(s: string, rules: seq<Rule>, k: nat)
    requires ValidRules(rules)
    requires k < |rules|
    requires forall i :: k <= i < |rules| ==> CannotRecreate(rules[i], rules[k].target)
    ensures !Occurs(ApplyRules(s, rules), rules[k].target)
    decreases |rules|
  {
    var s' := ReplaceAll(s, rules[0].target, rules[0].replacement);
    if k == 0 {
      assert CannotRecreate(rules[0], rules[0].target);
      ReplaceAllRemoves(s, rules[0].target, rules[0].replacement);
      ApplyRulesKeepsAbsent(s', rules[1..], rules[0].target);
    } else {
      ApplyRulesRemoves(s', rules[1..], k - 1);
    }
  }

  /** The filter leaves text without any of the five targets unchanged. */
  lemma FilterIdentityOnClean(s: string)
    requires Clean(s, Rules)
    ensures Filter(s) == s
  {
    ApplyRulesClean(s, Rules);
  }

  /** No "Groq" survives the filter: no replacement can recreate it. */
  lemma FilterHidesVendor(s: string)
    ensures !Occurs(Filter(s), "Groq")
  {
    ApplyRulesRemoves(s, Rules, 0);
  }

  /** Text naming the vendor is always changed by the filter. */
  lemma FilterChangesVendorText(s: string)
    requires Occurs(s, "Groq")
    ensures Filter(s) != s
  {
    FilterHidesVendor(s);
  }

  /**
   * "Llama" does survive the filter as written: "LlamLLM" has no "Llama", but
   * the third rule turns it into "Llamassistant", and no later rule looks for
   * "Llama" again.
   *
   * This lemma and the `Witness` lemmas below name their fixed input as a
   * parameter pinned by `requires`, so that the verifier reasons about one
   * symbolic string instead of re-evaluating the literal at every use.
   */
  lemma FilterLeaksLlama(w: string)
    requires w == "LlamLLM"
    ensures !Occurs(w, "Llama")
    ensures Filter(w) == "Llamassistant"
    ensures Occurs(Filter(w), "Llama")
  {
    WitnessLacksLlama(w);
    WitnessFilter(w);
    WitnessOutputHasLlama(Filter(w));
  }

  lemma WitnessFilter(w: string)
    requires w == "LlamLLM"
    ensures Filter(w) == "Llamassistant"
  {
    WitnessFirstSteps(w);
    WitnessThirdStep(w);
    WitnessLastSteps("Llamassistant");
    FilterThroughSteps(w, "Llamassistant");
  }

  lemma WitnessOutputHasLlama(v: string)
    requires v == "Llamassistant"
    ensures Occurs(v, "Llama")
  {
    assert StartsWith(v, "Llama");
  }

  /** Glue for the witness: the filter's output from the outputs of its single steps. */
  lemma FilterThroughSteps(s: string, v: string)
    requires ReplaceAll(ReplaceAll(s, "Groq", "VoxBox"), "Llama", "VoxBox") == s
    requires ReplaceAll(s, "LLM", "assistant") == v
    requires ReplaceAll(ReplaceAll(v, "Language Model", "assistant"), "as an AI", "I'm VoxBox") == v
    ensures Filter(s) == v
  {
    FilterSteps(s);
  }

  lemma WitnessLacksLlama(w: string)
    requires w == "LlamLLM"
    ensures !Occurs(w, "Llama")
  {
    AbsentWithoutChar(w[2..], "Llama", 1);
    assert w[1..][1..] == w[2..];
    assert !StartsWith(w[1..], "Llama");
    assert w[..5][4] != "Llama"[4];
  }

  lemma WitnessFirstSteps(w: string)
    requires w == "LlamLLM"
    ensures ReplaceAll(ReplaceAll(w, "Groq", "VoxBox"), "Llama", "VoxBox") == w
  {
    AbsentWithoutChar(w, "Groq", 0);
    ReplaceAllClean(w, "Groq", "VoxBox");
    WitnessLacksLlama(w);
    ReplaceAllClean(w, "Llama", "VoxBox");
  }

  lemma WitnessThirdStep(w: string)
    requires w == "LlamLLM"
    ensures ReplaceAll(w, "LLM", "assistant") == "Llamassistant"
  {
    var m := "LLM";
    assert StartsWith(m, "LLM") && m[|m|..] == [];
    assert ReplaceAll(m, "LLM", "assistant") == "assistant";
    assert !StartsWith(w, "LLM") by { assert w[..3][1] != "LLM"[1]; }
    assert w[1..] == "lam" + m;
    ReplaceAllAfterBarrier("lam", m, "LLM", "assistant");
  }

  lemma WitnessLastSteps(v: string)
    requires v == "Llamassistant"
    ensures ReplaceAll(ReplaceAll(v, "Language Model", "assistant"), "as an AI", "I'm VoxBox") == v
  {
    AbsentWithoutChar(v, "Language Model", 8);
    ReplaceAllClean(v, "Language Model", "assistant");
    AbsentWithoutChar(v, "as an AI", 2);
    ReplaceAllClean(v, "as an AI", "I'm VoxBox");
  }

  /** The same replacements with "Llama" moved after the two rules whose replacement starts with 'a'. */
  const ReorderedRules: seq<Rule> := [
    Rule("Groq", PublicName),
    Rule("LLM", "assistant"),
    Rule("Language Model", "assistant"),
    Rule("Llama", PublicName),
    Rule("as an AI", "I'm VoxBox")
  ]

  /** The filter with the corrected order. */
  function FilterReordered(s: string): string {
    ApplyRules(s, ReorderedRules)
  }

  /** The corrected filter is the same five replacements with "Llama" fourth. */
  lemma FilterReorderedSteps(s: string)
    ensures FilterReordered(s) ==
      ReplaceAll(ReplaceAll(ReplaceAll(ReplaceAll(ReplaceAll(s,
        "Groq", "VoxBox"), "LLM", "assistant"), "Language Model", "assistant"),
        "Llama", "VoxBox"), "as an AI", "I'm VoxBox")
  {
    var rs := ReorderedRules;
    var s1 := ReplaceAll(s, "Groq", "VoxBox");
    var s2 := ReplaceAll(s1, "LLM", "assistant");
    var s3 := ReplaceAll(s2, "Language Model", "assistant");
    var s4 := ReplaceAll(s3, "Llama", "VoxBox");
    var s5 := ReplaceAll(s4, "as an AI", "I'm VoxBox");
    assert ApplyRules(s4, rs[4..]) == s5 by { assert rs[4..][1..] == []; }
    assert ApplyRules(s3, rs[3..]) == ApplyRules(s4, rs[4..]) by { assert rs[3..][1..] == rs[4..]; }
    assert ApplyRules(s2, rs[2..]) == ApplyRules(s3, rs[3..]) by { assert rs[2..][1..] == rs[3..]; }
    assert ApplyRules(s1, rs[1..]) == ApplyRules(s2, rs[2..]) by { assert rs[1..][1..] == rs[2..]; }
  }

  /** With the corrected order, neither the vendor nor the model family name survives. */
  lemma FilterReorderedHidesNames(s: string)
    ensures !Occurs(FilterReordered(s), "Groq")
    ensures !Occurs(FilterReordered(s), "Llama")
  {
    ApplyRulesRemoves(s, ReorderedRules, 0);
    ApplyRulesRemoves(s, ReorderedRules, 3);
  }

  /**
   * The reordering only matters for text that mentions "LLM" or
   * "Language Model": on every other text both orders give the same result.
   */
  lemma FilterOrdersAgree(s: string)
    requires !Occurs(s, "LLM") && !Occurs(s, "Language Model")
    ensures FilterReordered(s) == Filter(s)
  {
    FilterSteps(s);
    FilterReorderedSteps(s);
    var g := ReplaceAll(s, "Groq", PublicName);
    ReplaceAllKeepsAbsent(s, "Groq", PublicName, "LLM");
    ReplaceAllKeepsAbsent(s, "Groq", PublicName, "Language Model");
    var l := ReplaceAll(g, "Llama", PublicName);
    ReplaceAllKeepsAbsent(g, "Llama", PublicName, "LLM");
    ReplaceAllKeepsAbsent(g, "Llama", PublicName, "Language Model");
    ReplaceAllClean(l, "LLM", "assistant");
    ReplaceAllClean(l, "Language Model", "assistant");
    ReplaceAllClean(g, "LLM", "assistant");
    ReplaceAllClean(g, "Language Model", "assistant");
  }
}

=== FILE: options.dfy ===
/** Optional values: a JSON key that may be absent, a result that may be missing. */
module Options {

  datatype Option<+T> = None | Some(value: T)
}

=== FILE: relay.dfy ===
/**
 * The `/api/chat` handler: readiness check, input validation, translation of
 * the browser's wire turns into chat-completion messages behind a fixed system
 * instruction, one call to the completion service, the identity filter, and
 * the choice of status and body.
 *
 * The completion service is a parameter (`upstream`), and the handler's result
 * records the one request it sent there, if any.
 */
module Relay {
  import opened Options
  import opened Substrings
  import IdentityFilter

  /** Roles of the completion service's messages. */
  datatype Role = System | User | Assistant

  datatype Message = Message(role: Role, content: string)

  /** `{"text": ...}` inside a wire turn's `parts`; `None` when the key is absent. */
  datatype Part = Part(text: Option<string>)

  /** `{"role": ..., "parts": [...]}` as posted by the browser; `None` when a key is absent. */
  datatype WireTurn = WireTurn(role: Option<string>, parts: Option<seq<Part>>)

  /**
   * The request body: not a JSON object at all, or an object whose `contents`
   * key is absent (`None`) or holds a list of wire turns.
   */
  datatype Request = Malformed | Payload(contents: Option<seq<WireTurn>>)

  /** `{"text": ...}` or `{"error": ...}`. */
  datatype Body = TextBody(text: string) | ErrorBody(error: string)

  datatype Response = Response(status: nat, body: Body)

  /** The fixed-parameter request sent to the completion service. */
  datatype CompletionRequest = CompletionRequest(
    model: string, messages: seq<Message>, temperature: real, maxTokens: nat)

  /**
   * What the completion service gave back: the first choice's message
   * content (which may be null), or an exception with its detail text.
   */
  datatype Reply = Completed(content: Option<string>) | Raised(detail: string)

  /** The response, and the completion request sent to obtain it (`None` if none was sent). */
  datatype Exchange = Exchange(response: Response, sent: Option<CompletionRequest>)

  const ModelName: string := "llama-3.1-8b-instant"
  const Temperature: real := 0.7
  const MaxTokens: nat := 250

  /** The placeholder key the readiness check refuses. */
  const PlaceholderKey: string := "YOUR_GROQ_API_KEY"

  const SystemPrompt: Message := Message(System,
    "\nYou are VoxBox, an intelligent, fast, and friendly voice assistant powered by Groq.\n"
    + "- Always identify yourself ONLY as \"VoxBox\".\n"
    + "- NEVER mention Groq, Llama, AI models, LLMs, or technical systems.\n"
    + "- Keep answers short and concise (2-4 sentences) suitable for a voice assistant.\n"
    + "- Provide accurate, factual, helpful answers.\n")

  const NotReadyText: string :=
    "Error: AI client is not initialized. Please ensure your API key is set correctly in app_groq.py."
  const NoContentText: string := "No content provided."
  const GenericErrorText: string :=
    "An internal error occurred while processing your Groq request. Please try again."

  const NotReady: Response := Response(500, TextBody(NotReadyText))
  const NoContent: Response := Response(400, ErrorBody(NoContentText))
  const InternalError: Response := Response(500, TextBody(GenericErrorText))

  /** The client handle exists and the key is not the placeholder. */
  predicate Ready(clientInitialized: bool, apiKey: string) {
    clientInitialized && apiKey != PlaceholderKey
  }

  /** "model" becomes the assistant; every other role value becomes the user. */
  function MapRole(role: string): (r: Role)
    ensures r != System
    ensures r == Assistant <==> role == "model"
  {
    if role == "model" then Assistant else User
  }

  /**
   * One wire turn as a message, or `None` where the handler's lookups
   * `msg['role']` and `msg['parts'][0]['text']` raise.
   */
  function TranslateTurn(w: WireTurn): (m: Option<Message>)
    ensures m.Some? <==>
      w.role.Some? && w.parts.Some? && |w.parts.value| > 0 && w.parts.value[0].text.Some?
    ensures m.Some? ==> m.value.role != System
    ensures m.Some? ==> m.value.content == w.parts.value[0].text.value
    ensures m.Some? ==> (m.value.role == Assistant <==> w.role.value == "model")
  {
    if w.role.None? || w.parts.None? || |w.parts.value| == 0 || w.parts.value[0].text.None? then None
    else Some(Message(MapRole(w.role.value), w.parts.value[0].text.value))
  }

  /** The turns translated in order; `None` as soon as one of them cannot be. */
  function TranslateTurns(turns: seq<WireTurn>): (ms: Option<seq<Message>>)
    ensures ms.Some? <==> forall i :: 0 <= i < |turns| ==> TranslateTurn(turns[i]).Some?
    ensures ms.Some? ==> |ms.value| == |turns|
    ensures ms.Some? ==> forall i :: 0 <= i < |turns| ==> TranslateTurn(turns[i]) == Some(ms.value[i])
    decreases |turns|
  {
    if |turns| == 0 then Some([])
    else
      match TranslateTurn(turns[0])
      case None => None
      case Some(m) =>
        match TranslateTurns(turns[1..])
        case None => None
        case Some(ms) => Some([m] + ms)
  }

  /**
   * The message list for the completion service: the system instruction,
   * then one message per wire turn in the same order.
   */
  function Translate(contents: seq<WireTurn>): (ms: Option<seq<Message>>)
    ensures ms.Some? <==> forall i :: 0 <= i < |contents| ==> TranslateTurn(contents[i]).Some?
    ensures ms.Some? ==> |ms.value| == |contents| + 1 && ms.value[0] == SystemPrompt
    ensures ms.Some? ==> forall i :: 0 <= i < |contents| ==> Some(ms.value[i + 1]) == TranslateTurn(contents[i])
    ensures ms.Some? ==> forall i :: 0 <= i < |ms.value| ==> (ms.value[i].role == System <==> i == 0)
  {
    match TranslateTurns(contents)
    case None => None
    case Some(turns) => Some([SystemPrompt] + turns)
  }

  /** The completion request for a message list: always the same model and sampling parameters. */
  function Completion(messages: seq<Message>): CompletionRequest {
    CompletionRequest(ModelName, messages, Temperature, MaxTokens)
  }

  /** The handler with the filter given as `mask`. */
  function Handle(ready: bool, request: Request, upstream: CompletionRequest -> Reply,
                  mask: string -> string): Exchange
  {
    if !ready then Exchange(NotReady, None)
    else match request
      case Malformed => Exchange(InternalError, None)
      case Payload(contents) =>
        if contents.None? || |contents.value| == 0 then Exchange(NoContent, None)
        else match Translate(contents.value)
          case None => Exchange(InternalError, None)
          case Some(messages) =>
            var call := Completion(messages);
            match upstream(call)
            case Completed(Some(text)) => Exchange(Response(200, TextBody(mask(text))), Some(call))
            case _ => Exchange(InternalError, Some(call))
  }

  /** The handler exactly as written. */
  function Chat(clientInitialized: bool, apiKey: string, request: Request,
                upstream: CompletionRequest -> Reply): (x: Exchange)
    // the readiness check comes first and sends nothing
    ensures !Ready(clientInitialized, apiKey) ==> x == Exchange(NotReady, None)
    // a body that is not a JSON object is an exception inside the try block
    ensures Ready(clientInitialized, apiKey) && request.Malformed? ==> x == Exchange(InternalError, None)
    // a missing or empty history is refused before anything is sent
    ensures (Ready(clientInitialized, apiKey) && request.Payload?
             && (request.contents.None? || request.contents.value == []))
            ==> x == Exchange(NoContent, None)
    // a turn that lacks a role or a first text part stops the handler before the call
    ensures (Ready(clientInitialized, apiKey) && request.Payload? && request.contents.Some?
             && Translate(request.contents.value).None?)
            ==> x == Exchange(InternalError, None)
    // otherwise exactly one call is made, with the translated history
    ensures (Ready(clientInitialized, apiKey) && request.Payload? && request.contents.Some?
             && request.contents.value != [] && Translate(request.contents.value).Some?)
            ==> x.sent == Some(Completion(Translate(request.contents.value).value))
    // the answer is the filtered completion, or the generic error without any detail
    ensures x.sent.Some? ==>
      match upstream(x.sent.value)
      case Completed(Some(text)) => x.response == Response(200, TextBody(IdentityFilter.Filter(text)))
      case _ => x.response == InternalError
    ensures x.response.status in {200, 400, 500}
    ensures x.response.status == 200 <==> x.sent.Some? && upstream(x.sent.value).Completed?
                                          && upstream(x.sent.value).content.Some?
  {
    Handle(Ready(clientInitialized, apiKey), request, upstream, IdentityFilter.Filter)
  }

  /** A successful answer never names the vendor. */
  lemma ChatHidesVendor(clientInitialized: bool, apiKey: string, request: Request,
                        upstream: CompletionRequest -> Reply)
    requires Chat(clientInitialized, apiKey, request, upstream).response.status == 200
    ensures !Occurs(Chat(clientInitialized, apiKey, request, upstream).response.body.text, "Groq")
  {
    var x := Chat(clientInitialized, apiKey, request, upstream);
    var text := upstream(x.sent.value).content.value;
    IdentityFilter.FilterHidesVendor(text);
  }

  /**
   * The detail of an upstream exception never reaches the caller: two
   * completion services that fail on the same requests, and agree wherever
   * they succeed, yield identical responses whatever their error texts.
   */
  lemma ChatHidesUpstreamErrors(clientInitialized: bool, apiKey: string, request: Request,
                                upstream1: CompletionRequest -> Reply, upstream2: CompletionRequest -> Reply)
    requires forall c :: upstream1(c).Raised? == upstream2(c).Raised?
    requires forall c :: upstream1(c).Completed? ==> upstream1(c) == upstream2(c)
    ensures Chat(clientInitialized, apiKey, request, upstream1) == Chat(clientInitialized, apiKey, request, upstream2)
  {
  }

  /** The handler with the reordered filter: neither the vendor nor the model family is named. */
  function ChatReordered(clientInitialized: bool, apiKey: string, request: Request,
                         upstream: CompletionRequest -> Reply): (x: Exchange)
    ensures x.sent == Chat(clientInitialized, apiKey, request, upstream).sent
    ensures x.response.status == Chat(clientInitialized, apiKey, request, upstream).response.status
    ensures x.response.status != 200 ==> x == Chat(clientInitialized, apiKey, request, upstream)
    ensures x.response.status == 200 ==>
      && x.response.body.TextBody?
      && !Occurs(x.response.body.text, "Groq")
      && !Occurs(x.response.body.text, "Llama")
    // the answer is the completion under the corrected filter
    ensures x.response.status == 200 ==>
      x.response.body == TextBody(IdentityFilter.FilterReordered(upstream(x.sent.value).content.value))
  {
    var x := Handle(Ready(clientInitialized, apiKey), request, upstream, IdentityFilter.FilterReordered);
    if x.response.status == 200 then
      IdentityFilter.FilterReorderedHidesNames(upstream(x.sent.value).content.value);
      x
    else x
  }

  /**
   * The corrected handler differs from the handler as written only on a
   * completion that mentions "LLM" or "Language Model".
   */
  lemma ChatReorderedAgrees(clientInitialized: bool, apiKey: string, request: Request,
                            upstream: CompletionRequest -> Reply)
    requires var x := Chat(clientInitialized, apiKey, request, upstream);
      x.response.status == 200 ==>
        && !Occurs(upstream(x.sent.value).content.value, "LLM")
        && !Occurs(upstream(x.sent.value).content.value, "Language Model")
    ensures ChatReordered(clientInitialized, apiKey, request, upstream) == Chat(clientInitialized, apiKey, request, upstream)
  {
    var x := Chat(clientInitialized, apiKey, request, upstream);
    if x.response.status == 200 {
      IdentityFilter.FilterOrdersAgree(upstream(x.sent.value).content.value);
    }
  }
}

=== FILE: substrings.dfy ===
/**
 * Literal substring operations on strings, with the semantics of Python's
 * `str` methods for a non-empty pattern:
 *  - `pat in s`            is `Occurs(s, pat)`
 *  - `s.count(pat)`        is `MatchCount(s, pat)`
 *  - `s.replace(pat, rep)` is `ReplaceAll(s, pat, rep)`
 *  - `s.split(pat)`        is `Split(s, pat)`, and `sep.join(parts)` is `Join(parts, sep)`
 * All of them scan left to right and take matches that do not overlap.
 */
module Substrings {

  /** `p` is a prefix of `s`. */
  predicate StartsWith(s: string, p: string) {
    |p| <= |s| && s[..|p|] == p
  }

  /** `pat` occurs in `s` starting at index `i`. */
  predicate OccursAt(s: string, pat: string, i: int) {
    0 <= i && i + |pat| <= |s| && s[i..i + |pat|] == pat
  }

  /** `pat` occurs somewhere in `s`, found by trying each start position from the left. */
  predicate Occurs(s: string, pat: string)
    decreases |s|
  {
    StartsWith(s, pat) || (|s| > 0 && Occurs(s[1..], pat))
  }

  /** The left-to-right search agrees with the positional definition of containment. */
  lemma {:induction false} OccursIffSomeIndex(s: string, pat: string)
    ensures Occurs(s, pat) <==> exists i :: OccursAt(s, pat, i)
    decreases |s|
  {
    if StartsWith(s, pat) {
      assert OccursAt(s, pat, 0);
    } else if |s| > 0 {
      OccursIffSomeIndex(s[1..], pat);
      if Occurs(s[1..], pat) {
        var i :| OccursAt(s[1..], pat, i);
        assert s[1..][i..i + |pat|] == s[i + 1..i + 1 + |pat|];
        assert OccursAt(s, pat, i + 1);
      }
      if i :| OccursAt(s, pat, i) {
        assert i != 0;
        assert s[1..][i - 1..i - 1 + |pat|] == s[i..i + |pat|];
        assert OccursAt(s[1..], pat, i - 1);
      }
    }
  }

  /** A pattern found in a suffix of `s` is found in `s`. */
  lemma {:induction false} OccursInSuffix(s: string, k: nat, pat: string)
    requires k <= |s|
    requires Occurs(s[k..], pat)
    ensures Occurs(s, pat)
    decreases k
  {
    if k > 0 {
      assert s[1..][k - 1..] == s[k..];
      OccursInSuffix(s[1..], k - 1, pat);
    }
  }

  /**
   * When no character of `a` can start `pat`, every occurrence of `pat` in
   * `a + b` lies inside `b`.
   */
  lemma {:induction false} OccursAfterBarrier(a: string, b: string, pat: string)
    requires |pat| > 0
    requires pat[0] !in a
    ensures Occurs(a + b, pat) ==> Occurs(b, pat)
    decreases |a|
  {
    if |a| > 0 {
      assert (a + b)[0] == a[0];
      assert (a + b)[1..] == a[1..] + b;
      OccursAfterBarrier(a[1..], b, pat);
    } else {
      assert a + b == b;
    }
  }

  /** `s` with every non-overlapping occurrence of `pat` replaced by `rep`, scanning left to right. */
  function ReplaceAll(s: string, pat: string, rep: string): string
    requires |pat| > 0
    decreases |s|
  {
    if |s| == 0 then s
    else if StartsWith(s, pat) then rep + ReplaceAll(s[|pat|..], pat, rep)
    else [s[0]] + ReplaceAll(s[1..], pat, rep)
  }

  /** The number of non-overlapping occurrences of `pat` in `s`, scanning left to right. */
  function MatchCount(s: string, pat: string): nat
    requires |pat| > 0
    decreases |s|
  {
    if |s| == 0 then 0
    else if StartsWith(s, pat) then 1 + MatchCount(s[|pat|..], pat)
    else MatchCount(s[1..], pat)
  }

  /** At least one match is counted exactly when the pattern occurs. */
  lemma {:induction false} MatchCountPositiveIffOccurs(s: string, pat: string)
    requires |pat| > 0
    ensures MatchCount(s, pat) > 0 <==> Occurs(s, pat)
    decreases |s|
  {
    if |s| > 0 && !StartsWith(s, pat) {
      MatchCountPositiveIffOccurs(s[1..], pat);
    }
  }

  /** Each replacement changes the length by `|rep| - |pat|`. */
  lemma {:induction false} ReplaceAllLength(s: string, pat: string, rep: string)
    requires |pat| > 0
    ensures |ReplaceAll(s, pat, rep)| == |s| + MatchCount(s, pat) * (|rep| - |pat|)
    decreases |s|
  {
    if |s| == 0 {
    } else if StartsWith(s, pat) {
      var s' := s[|pat|..];
      ReplaceAllLength(s', pat, rep);
      assert (1 + MatchCount(s', pat)) * (|rep| - |pat|)
          == (|rep| - |pat|) + MatchCount(s', pat) * (|rep| - |pat|);
    } else {
      ReplaceAllLength(s[1..], pat, rep);
    }
  }

  /** Text in which no match can start is copied, and replacement goes on after it. */
  lemma {:induction false} ReplaceAllAfterBarrier(a: string, b: string, pat: string, rep: string)
    requires |pat| > 0
    requires pat[0] !in a
    ensures ReplaceAll(a + b, pat, rep) == a + ReplaceAll(b, pat, rep)
    decreases |a|
  {
    if |a| > 0 {
      assert (a + b)[0] == a[0];
      assert (a + b)[1..] == a[1..] + b;
      ReplaceAllAfterBarrier(a[1..], b, pat, rep);
      assert [a[0]] + a[1..] == a;
    } else {
      assert a + b == b;
    }
  }

  /** Text without the pattern is returned unchanged. */
  lemma {:induction false} ReplaceAllClean(s: string, pat: string, rep: string)
    requires |pat| > 0
    requires !Occurs(s, pat)
    ensures ReplaceAll(s, pat, rep) == s
    decreases |s|
  {
    if |s| > 0 {
      ReplaceAllClean(s[1..], pat, rep);
      assert [s[0]] + s[1..] == s;
    }
  }

  /**
   * When the replacement has a different length from the pattern, the text is
   * unchanged exactly when the pattern does not occur in it.
   */
  lemma {:induction false} ReplaceAllFixedIff(s: string, pat: string, rep: string)
    requires |pat| > 0
    requires |rep| != |pat|
    ensures ReplaceAll(s, pat, rep) == s <==> !Occurs(s, pat)
  {
    MatchCountPositiveIffOccurs(s, pat);
    ReplaceAllLength(s, pat, rep);
    if !Occurs(s, pat) {
      ReplaceAllClean(s, pat, rep);
    } else {
      var c, d := MatchCount(s, pat), |rep| - |pat|;
      assert c * d != 0 by {
        if d > 0 { assert c * d >= d; } else { assert c * d <= d; }
      }
    }
  }

  /** Replacing a pattern by itself leaves every string unchanged. */
  lemma {:induction false} ReplaceAllBySelf(s: string, pat: string)
    requires |pat| > 0
    ensures ReplaceAll(s, pat, pat) == s
    decreases |s|
  {
    if |s| == 0 {
    } else if StartsWith(s, pat) {
      ReplaceAllBySelf(s[|pat|..], pat);
      assert s[..|pat|] + s[|pat|..] == s;
    } else {
      ReplaceAllBySelf(s[1..], pat);
      assert [s[0]] + s[1..] == s;
    }
  }

  /**
   * A prefix of the output that avoids the first character of `rep` was
   * copied from the input: replacement text cannot begin inside it.
   */
  lemma {:induction false} PrefixSurvivesReplace(t: string, pat: string, rep: string, u: string)
    requires |pat| > 0 && |rep| > 0
    requires rep[0] !in u
    requires StartsWith(ReplaceAll(t, pat, rep), u)
    ensures StartsWith(t, u)
    decreases |t|
  {
    if |u| > 0 && |t| > 0 {
      var out := ReplaceAll(t, pat, rep);
      assert out[0] == u[0];
      if !StartsWith(t, pat) {
        var r := ReplaceAll(t[1..], pat, rep);
        assert out == [t[0]] + r;
        assert r[..|u| - 1] == out[1..|u|];
        assert StartsWith(r, u[1..]);
        PrefixSurvivesReplace(t[1..], pat, rep, u[1..]);
        assert t[..|u|] == [t[0]] + t[1..][..|u| - 1];
      }
    }
  }

  /**
   * Every occurrence of `pat` is removed, provided no occurrence can be formed
   * afresh: `pat` cannot start inside `rep`, and `rep` cannot continue a
   * partial `pat` standing before it.
   */
  lemma {:induction false} ReplaceAllRemoves(s: string, pat: string, rep: string)
    requires |pat| > 0 && |rep| > 0
    requires pat[0] !in rep
    requires rep[0] !in pat
    ensures !Occurs(ReplaceAll(s, pat, rep), pat)
    decreases |s|
  {
    if |s| == 0 {
    } else if StartsWith(s, pat) {
      var s' := s[|pat|..];
      ReplaceAllRemoves(s', pat, rep);
      OccursAfterBarrier(rep, ReplaceAll(s', pat, rep), pat);
    } else {
      var r := ReplaceAll(s[1..], pat, rep);
      ReplaceAllRemoves(s[1..], pat, rep);
      assert ([s[0]] + r)[1..] == r;
      if StartsWith([s[0]] + r, pat) {
        assert r[..|pat| - 1] == ([s[0]] + r)[1..|pat|];
        assert StartsWith(r, pat[1..]);
        PrefixSurvivesReplace(s[1..], pat, rep, pat[1..]);
      }
    }
  }

  /**
   * Replacing `pat` cannot create an occurrence of another pattern `q` that
   * the input lacked, provided `q` cannot start inside `rep` and `rep` cannot
   * continue a partial `q` standing before it.
   */
  lemma {:induction false} ReplaceAllKeepsAbsent(s: string, pat: string, rep: string, q: string)
    requires |pat| > 0 && |rep| > 0 && |q| > 0
    requires q[0] !in rep
    requires rep[0] !in q
    requires !Occurs(s, q)
    ensures !Occurs(ReplaceAll(s, pat, rep), q)
    decreases |s|
  {
    if |s| == 0 {
    } else if StartsWith(s, pat) {
      var s' := s[|pat|..];
      if Occurs(s', q) {
        OccursInSuffix(s, |pat|, q);
      }
      ReplaceAllKeepsAbsent(s', pat, rep, q);
      OccursAfterBarrier(rep, ReplaceAll(s', pat, rep), q);
    } else {
      var r := ReplaceAll(s[1..], pat, rep);
      ReplaceAllKeepsAbsent(s[1..], pat, rep, q);
      assert ([s[0]] + r)[1..] == r;
      if StartsWith([s[0]] + r, q) {
        assert r[..|q| - 1] == ([s[0]] + r)[1..|q|];
        assert StartsWith(r, q[1..]);
        PrefixSurvivesReplace(s[1..], pat, rep, q[1..]);
      }
    }
  }

  /** The pieces of `s` between non-overlapping occurrences of `pat`. */
  function Split(s: string, pat: string): (parts: seq<string>)
    requires |pat| > 0
    ensures |parts| > 0
    decreases |s|
  {
    if |s| == 0 then [[]]
    else if StartsWith(s, pat) then [[]] + Split(s[|pat|..], pat)
    else
      var rest := Split(s[1..], pat);
      [[s[0]] + rest[0]] + rest[1..]
  }

  /** The pieces in order with `sep` between neighbours. */
  function Join(parts: seq<string>, sep: string): string
    requires |parts| > 0
    decreases |parts|
  {
    if |parts| == 1 then parts[0] else parts[0] + sep + Join(parts[1..], sep)
  }

  /** Extending the first piece extends the joined string at the front. */
  lemma JoinExtendFirst(x: string, parts: seq<string>, sep: string)
    requires |parts| > 0
    ensures Join([x + parts[0]] + parts[1..], sep) == x + Join(parts, sep)
  {
    var parts' := [x + parts[0]] + parts[1..];
    if |parts| > 1 {
      assert parts'[1..] == parts[1..];
    }
  }

  /** `s.split(pat)` has one more piece than `s.count(pat)`. */
  lemma {:induction false} SplitCount(s: string, pat: string)
    requires |pat| > 0
    ensures |Split(s, pat)| == MatchCount(s, pat) + 1
    decreases |s|
  {
    if |s| == 0 {
    } else if StartsWith(s, pat) {
      SplitCount(s[|pat|..], pat);
    } else {
      SplitCount(s[1..], pat);
    }
  }

  /** The first piece of the split is a prefix of the input. */
  lemma {:induction false} SplitFirstIsPrefix(s: string, pat: string)
    requires |pat| > 0
    ensures StartsWith(s, Split(s, pat)[0])
    decreases |s|
  {
    if |s| > 0 && !StartsWith(s, pat) {
      SplitFirstIsPrefix(s[1..], pat);
      var p := Split(s[1..], pat)[0];
      assert s[..|p| + 1] == [s[0]] + s[1..][..|p|];
    }
  }

  /** No piece of the split contains the separator. */
  lemma {:induction false} SplitPiecesClean(s: string, pat: string)
    requires |pat| > 0
    ensures forall i :: 0 <= i < |Split(s, pat)| ==> !Occurs(Split(s, pat)[i], pat)
    decreases |s|
  {
    if |s| == 0 {
    } else if StartsWith(s, pat) {
      SplitPiecesClean(s[|pat|..], pat);
      var rest := Split(s[|pat|..], pat);
      assert Split(s, pat) == [[]] + rest;
      forall i | 0 <= i < |Split(s, pat)|
        ensures !Occurs(Split(s, pat)[i], pat)
      {
        if i > 0 {
          assert Split(s, pat)[i] == rest[i - 1];
        }
      }
    } else {
      var rest := Split(s[1..], pat);
      SplitPiecesClean(s[1..], pat);
      SplitFirstIsPrefix(s[1..], pat);
      var first := [s[0]] + rest[0];
      assert first[1..] == rest[0];
      assert !Occurs(first, pat);
      forall i | 0 <= i < |Split(s, pat)|
        ensures !Occurs(Split(s, pat)[i], pat)
      {
        if i > 0 {
          assert Split(s, pat)[i] == rest[i];
        }
      }
    }
  }

  /** Python's identity `s.replace(pat, rep) == rep.join(s.split(pat))`. */
  lemma {:induction false} ReplaceAllIsSplitJoin(s: string, pat: string, rep: string)
    requires |pat| > 0
    ensures ReplaceAll(s, pat, rep) == Join(Split(s, pat), rep)
    decreases |s|
  {
    if |s| == 0 {
    } else if StartsWith(s, pat) {
      var rest := Split(s[|pat|..], pat);
      ReplaceAllIsSplitJoin(s[|pat|..], pat, rep);
      assert Split(s, pat) == [[]] + rest;
      assert ([[]] + rest)[1..] == rest;
      assert Join([[]] + rest, rep) == rep + Join(rest, rep);
      assert ReplaceAll(s, pat, rep) == rep + ReplaceAll(s[|pat|..], pat, rep);
    } else {
      var rest := Split(s[1..], pat);
      ReplaceAllIsSplitJoin(s[1..], pat, rep);
      assert Split(s, pat) == [[s[0]] + rest[0]] + rest[1..];
      JoinExtendFirst([s[0]], rest, rep);
      assert ReplaceAll(s, pat, rep) == [s[0]] + ReplaceAll(s[1..], pat, rep);
    }
  }

  /** Splitting on `pat` and joining with `pat` gives back the input. */
  lemma SplitJoinRoundTrip(s: string, pat: string)
    requires |pat| > 0
    ensures Join(Split(s, pat), pat) == s
  {
    ReplaceAllIsSplitJoin(s, pat, pat);
    ReplaceAllBySelf(s, pat);
  }
}
